=== FILE: README.md ===
# kpam brochure site: page logic in Dafny

This project models the state and the derived values behind the interactive
pages of the Kakondo Protected Area Management brochure site:

- **News & Publications**: the search/category/type filter over the news
  list, the Clear Filters reset, the type label formatter and the type
  badge colour.
- **Projects**: the category filter, the statistic cards and the status
  badge colour.
- **Get Involved**: the volunteer application draft and its setters, the
  interest list, when Submit is enabled, and the simulated submission as
  two events: the button press and the timer firing.
- **Contact**: the message draft, the generic `handleInputChange`, the
  `isFormValid` check, and the `submitStatus` machine (idle, success,
  error).
- **Dashboard**: the total member count, the active-CBO count, the status
  badge colour, and the fact that nothing on the page changes its
  collections.
- **Team**: the split of the member list into executive, program and
  volunteer groups, plus the type label and colour lookups.

Two shared modules support the pages:

- `Seqs`: JavaScript's stable `filter`, `filter(..).length` and `reduce`
  sums, with an order-preserving subsequence relation as their reference.
- `Text`: `toLowerCase`, `includes`, `replace` with a one-character
  pattern, and the `/\b\w/g` capitaliser. `Includes` comes with a
  declarative partner, `IsInfix`.

Each page is one module of immutable datatypes and pure functions.

- Closed string unions in the source become datatypes, such as a project's
  status or a member's type.
- Each union stored in a record field has a `...Name` function that gives
  back the literal the source uses. These are the news type, project
  status, member type, and CBO and staff status. Contact's `submitStatus`
  is page state that is never rendered as text, so it has no such
  function.
- Lookups that take a `string` in the source also take a string here.

A submission is two discrete events. The begin event needs the button to
be enabled, because the button's `disabled` attribute is the only guard
in the component's own code; the handler itself does not check validity. The complete event needs a
submission in flight, because only then is a timer pending.

The Contact and Dashboard pages also have trace-level `Step`/`Run`
functions. In these, a disabled press or a timer with nothing pending is a
no-op.

Notes on the source's behaviour:

- The sample data holds two Agriculture projects (ids 2 and 3).
- Validity is the raw `disabled`/`isFormValid` expression with no
  trimming, so a field holding only spaces counts as filled.
- Checking an interest appends it without looking for an earlier copy.
  Only the checkbox wiring keeps the list free of duplicates.
- The "8" card on the Team page (src/pages/Team.tsx:299) counts wards
  covered. The model only states that the group sizes add up to the
  length of the list.

## Model

| member | source | states |
|---|---|---|
| News.FilterNews | src/pages/News.tsx:95-102 | `filteredNews` is never longer than the list and holds an item iff the item is in the list and meets the search, category and type criteria |
| News.FilterNewsKeeps | src/pages/News.tsx:95-102 | an item is shown iff it is in the list, the lower-cased term is a substring of the lower-cased title or description, and category and type each match or are "all"; each shown item appears exactly as often as in the list, and the result is never longer than the list |
| News.FilterNewsIsSubsequence | src/pages/News.tsx:95-102 | the filtered list keeps the original relative order (order-preserving subsequence) |
| News.SearchIsInfix | src/pages/News.tsx:96-97 | the search matches iff lower(term) occurs as a contiguous block of lower(title) or lower(description) |
| News.EmptySearchMatches | src/pages/News.tsx:96-97 | an empty search term matches every item |
| News.SearchIgnoresCase | src/pages/News.tsx:96-97 | terms (and titles/descriptions) that agree after lower-casing match the same way |
| News.ClearedShowsAll | src/pages/News.tsx:169-173 | the criteria Clear Filters restores ("", "all", "all") show the whole list unchanged |
| News.UnknownCategoryShowsNothing | src/pages/News.tsx:98 | a non-"all" category that no item carries yields the empty list |
| News.UnknownTypeShowsNothing | src/pages/News.tsx:99 | a non-"all" type that no item carries yields the empty list |
| News.TighterCriteriaShrink | src/pages/News.tsx:98-101 | tightening the category or the type (or both) from "all" to a value, with the same search term, shows a subsequence of the previous result, so never more items |
| News.CategoryThenType | src/pages/News.tsx:95-101 | filtering by term and category and then by type equals filtering by all three at once |
| News.TypeLabel | src/pages/News.tsx:193 | the label has the type's length; each non-hyphen character is upper-cased exactly where a word starts in the type (a word character after a non-word character or at the beginning) and kept otherwise; the first hyphen becomes a space and later hyphens stay |
| News.TypeLabelWord | src/pages/News.tsx:193 | a single lower-case word (no hyphen) gets only its first letter upper-cased |
| News.TypeLabelHyphenated | src/pages/News.tsx:193 | two lower-case words joined by '-' become the two capitalised words joined by a space |
| News.TypeLabelPressRelease | src/pages/News.tsx:193 | 'press-release' is shown as 'Press Release' |
| News.TypeLabelNews | src/pages/News.tsx:193 | 'news' is shown as 'News' |
| News.TypeLabelPublication | src/pages/News.tsx:193 | 'publication' is shown as 'Publication' |
| News.TypeOptionLabel | src/pages/News.tsx:164 | the drop-down shows "All Types" for the sentinel; any other type keeps its length, has its first hyphen turned into a space and each word start upper-cased, every other character unchanged |
| News.TypeOptionLabels | src/pages/News.tsx:164 | the drop-down entries read "News", "Publication" and "Press Release" for the three item kinds |
| News.TypeColor | src/pages/News.tsx:104-111 | any value other than the three types gets the grey default |
| News.TypeColorsDistinct | src/pages/News.tsx:104-111 | the three item types get three distinct non-grey colours |
| Text.ToLower | src/pages/News.tsx:96-97 | lower-casing keeps the length and maps each character on its own (ASCII A-Z to a-z, all else unchanged) |
| Text.ToLowerIdempotent | src/pages/News.tsx:96-97 | lower-casing an already lower-cased string changes nothing |
| Text.Includes | src/pages/News.tsx:96-97 | the left-to-right `includes` scan succeeds iff the needle occurs at some position of the haystack |
| Text.InfixTail | src/pages/News.tsx:96-97 | when the needle is not a prefix, it occurs in the haystack iff it occurs in the haystack's tail, which is the step the scan takes |
| Text.ReplaceFirst | src/pages/News.tsx:164 | only the first occurrence of the pattern character is replaced; every other character is kept |
| Text.ReplaceFirstWordStarts | src/pages/News.tsx:164 | replacing a non-word character by another leaves every `\b\w` match position where it was |
| Text.ReplaceFirstSplit | src/pages/News.tsx:164 | in a + '-' + b with no '-' in a, exactly that hyphen is replaced, even if b holds more |
| Text.CapitalizeWords | src/pages/News.tsx:164 | a character is upper-cased exactly where a word starts (a word character not preceded by one) |
| Text.CapitalizeTwoLowerWords | src/pages/News.tsx:193 | two lower-case words separated by a space are each capitalised |
| Projects.FilterProjects | src/pages/Projects.tsx:209-211 | "all" returns the portfolio unchanged; any other category returns only projects of that category, never more than the portfolio |
| Projects.FilterProjectsKeeps | src/pages/Projects.tsx:209-211 | the result is an order-preserving subsequence that holds a project iff it is in the portfolio and the selection is "all" or its category, and then exactly as often as the portfolio does |
| Projects.SelectCategory | src/pages/Projects.tsx:287 | a category click changes only the selection, never the portfolio |
| Projects.ComputeStats | src/pages/Projects.tsx:231-236 | total is the portfolio length, and completed + ongoing never exceeds it because the status is single-valued |
| Projects.StatsIgnoreSelection | src/pages/Projects.tsx:231-236 | the cards do not depend on the selected category |
| Projects.StatsOnePass | src/pages/Projects.tsx:231-236 | a single accumulating pass computes exactly the four cards |
| Projects.StatusColor | src/pages/Projects.tsx:213-220 | any value other than the three statuses gets the grey default |
| Projects.StatusColorsDistinct | src/pages/Projects.tsx:213-220 | the three statuses get three distinct non-grey colours |
| Projects.SampleStats | src/pages/Projects.tsx:50-205 | on the hard-coded portfolio the cards read 8 total, 5 completed, 3 ongoing, 86,750 beneficiaries |
| Projects.SampleAgriculture | src/pages/Projects.tsx:70-108 | on the hard-coded portfolio "Agriculture" shows exactly projects 2 and 3, in that order |
| GetInvolved.SetText | src/pages/GetInvolved.tsx:230-372 | each text setter writes its own field and leaves every other text field, the interests and the terms flag unchanged |
| GetInvolved.SetAgreedToTerms | src/pages/GetInvolved.tsx:384 | the terms checkbox changes only the terms flag |
| GetInvolved.HandleInterestChange | src/pages/GetInvolved.tsx:111-118 | checking appends the interest after the unchanged old list (length + 1); unchecking leaves no copy; no other field changes |
| GetInvolved.UncheckKeepsOthers | src/pages/GetInvolved.tsx:116 | unchecking keeps every other interest in order and with its multiplicity |
| GetInvolved.CheckingTwiceDuplicates | src/pages/GetInvolved.tsx:114-115 | checking an interest that is already present stores a second copy |
| GetInvolved.CheckboxClickKeepsDistinct | src/pages/GetInvolved.tsx:317-318 | since the checkbox reports the toggled state, a duplicate-free list stays duplicate-free |
| GetInvolved.CanSubmit | src/pages/GetInvolved.tsx:395 | Submit is enabled iff name, email and motivation are non-empty, the terms are accepted and nothing is in flight |
| GetInvolved.OptionalEditsKeepCanSubmit | src/pages/GetInvolved.tsx:395 | editing any other text field, or the interests, never changes whether Submit is enabled |
| GetInvolved.WhitespaceCountsAsFilled | src/pages/GetInvolved.tsx:395 | fields holding a single space count as filled |
| GetInvolved.SelectInvolvement | src/pages/GetInvolved.tsx:168 | clicking an involvement card moves only the highlight |
| GetInvolved.BeginSubmit | src/pages/GetInvolved.tsx:120-122 | starting a submission keeps the draft, sets the in-flight flag and thereby disables Submit |
| GetInvolved.CompleteSubmit | src/pages/GetInvolved.tsx:125-141 | completion clears the flag and restores exactly the initial draft, after which Submit is disabled |
| GetInvolved.SubmitScenario | src/pages/GetInvolved.tsx:395 | an application with name, email and motivation filled and nothing in flight can be submitted iff its terms box is ticked; unticking it disables Submit |
| Contact.HandleInputChange | src/pages/Contact.tsx:32-37 | the named field takes the new value and every other field keeps its value |
| Contact.HandleInputChangeLaws | src/pages/Contact.tsx:32-37 | writing back a field's current value is the identity; a second write to a field overrides the first |
| Contact.IsFormValid | src/pages/Contact.tsx:61 | the draft is valid iff name, email, message and the terms flag are all truthy |
| Contact.SendDisabled | src/pages/Contact.tsx:283 | Send is disabled iff a submission is in flight or some required field is not truthy |
| Contact.OptionalFieldsIrrelevant | src/pages/Contact.tsx:61 | phone, subject, inquiry type and the volunteer flag never affect validity |
| Contact.BeginSubmit | src/pages/Contact.tsx:39-41 | Send fires only while enabled; it keeps draft and banner and sets the in-flight flag, disabling Send |
| Contact.CompleteSubmit | src/pages/Contact.tsx:44-58 | the timer clears the flag, sets the banner to success and restores the initial draft, which is invalid, so Send is disabled |
| Contact.Step | src/pages/Contact.tsx:29-59 | the banner becomes success iff it was success or a pending timer fires; the flag is set iff it stays in flight or an enabled Send is pressed; edits touch neither |
| Contact.RunNeverError | src/pages/Contact.tsx:30 | no sequence of events ever reaches the 'error' status |
| Contact.SuccessSticky | src/pages/Contact.tsx:46 | once the success banner shows, it stays whatever follows |
| Contact.StatusReflectsCompletion | src/pages/Contact.tsx:30-46 | from idle, the status stays idle or becomes success, and becomes success iff some timer fires while a submission is in flight |
| Contact.SendRoundTrip | src/pages/Contact.tsx:39-61 | filling the required fields enables Send; Send then the timer gives the success banner, the initial draft and a disabled Send |
| Dashboard.TotalMembers | src/pages/Dashboard.tsx:152 | the total of no CBOs is 0; with no negative member count the total is non-negative and at least every single CBO's members |
| Dashboard.TotalMembersAppend | src/pages/Dashboard.tsx:152 | adding a CBO adds exactly its members to the total; non-negative member counts give a non-negative total |
| Dashboard.ActiveCbos | src/pages/Dashboard.tsx:153 | the active count never exceeds the number of CBOs |
| Dashboard.ActiveCbosBounds | src/pages/Dashboard.tsx:153 | active plus inactive CBOs make up all of them, and all are counted iff all are active |
| Dashboard.StatusColor | src/pages/Dashboard.tsx:148-150 | green iff the status is 'active'; yellow for every other value |
| Dashboard.StatusBadges | src/pages/Dashboard.tsx:148-150 | CBO and staff badges are green exactly for the active status |
| Dashboard.ComputeStats | src/pages/Dashboard.tsx:179-205 | the cards show the CBO count; the active count, which is `ActiveCbos` and so no larger than the CBO count; the member total, which is `TotalMembers` and so the `reduce` sum; and the staff count |
| Dashboard.Step | src/pages/Dashboard.tsx:245-294 | opening or closing the Add CBO dialog only sets its flag; its Add CBO button changes nothing |
| Dashboard.RunKeepsStats | src/pages/Dashboard.tsx:59-146 | no sequence of events changes the collections, so the cards are constant |
| Dashboard.SampleStats | src/pages/Dashboard.tsx:59-153 | on the hard-coded data the cards read 5 CBOs, 5 active, 178 members and 3 staff after any events |
| Team.Group | src/pages/Team.tsx:167-169 | a group holds only members of its type and is never longer than the list |
| Team.ExecutiveTeam | src/pages/Team.tsx:167 | `executiveTeam` keeps list order and holds a member iff it is in the list with type 'executive' |
| Team.ProgramTeam | src/pages/Team.tsx:168 | `programStaff` keeps list order and holds a member iff it is in the list with type 'program' |
| Team.Volunteers | src/pages/Team.tsx:169 | `volunteers` keeps list order and holds a member iff it is in the list with type 'volunteer' |
| Team.GroupKeeps | src/pages/Team.tsx:167-169 | a group is an order-preserving subsequence holding a member iff it is in the list with that type, as often as in the list |
| Team.GroupsDisjoint | src/pages/Team.tsx:167-169 | groups of different types share no member |
| Team.GroupSizesSum | src/pages/Team.tsx:25 | the four type groups account for every member exactly once |
| Team.DisplayedGroupsSize | src/pages/Team.tsx:167-169 | board members appear in no displayed group, so the three groups add up to the list length minus the board count |
| Team.TypeLabel | src/pages/Team.tsx:157-165 | any string other than the four types is shown unchanged |
| Team.TypeLabels | src/pages/Team.tsx:157-165 | the four types get four distinct labels that differ from the type string; the pass-through shows 'Volunteer' like 'volunteer' |
| Team.TypeColor | src/pages/Team.tsx:147-155 | any string other than the four types gets the grey default |
| Team.TypeColorsDistinct | src/pages/Team.tsx:147-155 | the four types get four distinct non-grey colours |
| Team.GroupsOfSampleTypes | src/pages/Team.tsx:32-145 | any list whose types run like the sample's has 8 members in groups of 2, 3 and 3 |
| Team.SampleGroups | src/pages/Team.tsx:32-145 | on the hard-coded list the cards read 2 executive, 3 program and 3 volunteer members, together all 8 |

## Left out

- Rendering is left out: JSX markup, icons, images, and Tailwind classes
  other than the colour lookups. There is one lookup on each of the News,
  Projects, Dashboard and Team pages.
- Record fields used only for display are left out:
  - News `image` and `downloadUrl`;
  - Project `description`, `budget`, `outcomes`, `image` and `details`;
  - Team `qualification`, `specialization`, `background` and `image`.
- `formatDate` and `toLocaleString` are left out. They depend on the
  JavaScript `Date` object and on locale data.
- `setTimeout` timing and `alert` are not modelled. A submission is two
  discrete events, with no real time and no concurrency.
- Browser-side HTML `required` validation is left out, and so is the
  Contact captcha checkbox, which lives outside component state.
- The browser's format check on the `type="email"` inputs
  (src/pages/Contact.tsx:186, src/pages/GetInvolved.tsx:239) is left out.
  When the email is non-empty but not an address, the browser blocks the
  form's submit event, so `handleSubmit` never runs. `Contact.Step`,
  `Contact.SendRoundTrip` and `GetInvolved.BeginSubmit` therefore describe
  a press that reaches the handler; they promise nothing about an address
  the browser rejects.
- `getStatusIcon` on the Projects page is left out. It returns only icon
  elements.
- The Team page's `selectedMember` state is left out. It is declared but
  never read.
- The Dashboard's `isAddMemberOpen` flag is carried but never changed. No
  dialog in the page uses it.
- Routing, the navigation layout, and the Home and Focus Area pages are
  left out. They are static content.
- Text.ToLower: case folding covers ASCII letters only, not the full
  Unicode `toLowerCase` mapping. Non-ASCII letters are left unchanged.
- Text.CapitalizeWords: `\w` is the ASCII class `[A-Za-z0-9_]` and
  upper-casing covers ASCII only, matching JavaScript regular expressions
  without the `u` flag.
- Contact.HandleInputChange: it requires the value kind (string or
  boolean) to match the field. The TypeScript signature accepts any
  pairing, but every call site passes a matching one.
- Projects.ComputeStats: beneficiary and member counts are unbounded
  integers, not JavaScript doubles. The sums involved are far below 2^53.
- Dashboard.TotalMembersAppend: the same integer note applies.

=== FILE: contact.dfy ===
/** The Contact page: the message draft, the generic field handler, the
    validity predicate behind the Send button and the
    idle/success/error status machine driven by the simulated submission. */
module Contact {

  /** The message draft (`formData`). */
  datatype Draft = Draft(
    name: string,
    email: string,
    phone: string,
    subject: string,
    inquiryType: string,
    message: string,
    isVolunteer: bool,
    agreedToTerms: bool)

  /** The draft the page starts with and that a completed submission
      restores. */
  const InitialDraft: Draft := Draft("", "", "", "", "", "", false, false)

  /** The keys `handleInputChange` is called with. */
  datatype Field =
    | Name | Email | Phone | Subject | InquiryType | Message
    | IsVolunteer | AgreedToTerms

  /** The `string | boolean` value argument of `handleInputChange`. */
  datatype Value = Text(s: string) | Flag(b: bool)

  predicate IsFlagField(f: Field)
  {
    f == IsVolunteer || f == AgreedToTerms
  }

  /** The value carries the type the draft declares for the field. */
  predicate Fits(f: Field, v: Value)
  {
    IsFlagField(f) <==> v.Flag?
  }

  /** The current value of a field, read through its key. */
  function Get(d: Draft, f: Field): (v: Value)
    ensures Fits(f, v)
  {
    match f
    case Name => Text(d.name)
    case Email => Text(d.email)
    case Phone => Text(d.phone)
    case Subject => Text(d.subject)
    case InquiryType => Text(d.inquiryType)
    case Message => Text(d.message)
    case IsVolunteer => Flag(d.isVolunteer)
    case AgreedToTerms => Flag(d.agreedToTerms)
  }

  /** `handleInputChange(field, value)`: `{...prev, [field]: value}`. */
  function HandleInputChange(d: Draft, f: Field, v: Value): (r: Draft)
    requires Fits(f, v)
    ensures Get(r, f) == v
    ensures forall g :: g != f ==> Get(r, g) == Get(d, g)
  {
    match f
    case Name => d.(name := v.s)
    case Email => d.(email := v.s)
    case Phone => d.(phone := v.s)
    case Subject => d.(subject := v.s)
    case InquiryType => d.(inquiryType := v.s)
    case Message => d.(message := v.s)
    case IsVolunteer => d.(isVolunteer := v.b)
    case AgreedToTerms => d.(agreedToTerms := v.b)
  }

  /** Two drafts that agree on every field are the same draft, so the
      handler's contract determines its result. */
  lemma DraftExtensional(d: Draft, e: Draft)
    requires forall f :: Get(d, f) == Get(e, f)
    ensures d == e
  {
    assert Get(d, Name) == Get(e, Name);
    assert Get(d, Email) == Get(e, Email);
    assert Get(d, Phone) == Get(e, Phone);
    assert Get(d, Subject) == Get(e, Subject);
    assert Get(d, InquiryType) == Get(e, InquiryType);
    assert Get(d, Message) == Get(e, Message);
    assert Get(d, IsVolunteer) == Get(e, IsVolunteer);
    assert Get(d, AgreedToTerms) == Get(e, AgreedToTerms);
  }

  /** Writing back the value a field already holds changes nothing, and a
      second write to the same field overrides the first. */
  lemma HandleInputChangeLaws(d: Draft, f: Field, v: Value, w: Value)
    requires Fits(f, v) && Fits(f, w)
    ensures HandleInputChange(d, f, Get(d, f)) == d
    ensures HandleInputChange(HandleInputChange(d, f, v), f, w) == HandleInputChange(d, f, w)
  {
    DraftExtensional(HandleInputChange(d, f, Get(d, f)), d);
    DraftExtensional(HandleInputChange(HandleInputChange(d, f, v), f, w), HandleInputChange(d, f, w));
  }

  /** The fields the validity check reads. */
  predicate IsRequired(f: Field)
  {
    f == Name || f == Email || f == Message || f == AgreedToTerms
  }

  /** A value is truthy in JavaScript: a non-empty string or `true`. */
  predicate Truthy(v: Value)
  {
    match v
    case Text(s) => s != ""
    case Flag(b) => b
  }

  /** `isFormValid`: the `&&` chain over name, email, message and the terms
      flag is truthy, i.e. every required field is truthy; whitespace is not
      trimmed, so a single space fills a text field. */
  predicate IsFormValid(d: Draft): (valid: bool)
    ensures valid <==> forall f :: IsRequired(f) ==> Truthy(Get(d, f))
  {
    assert Get(d, Name) == Text(d.name) && Get(d, Email) == Text(d.email);
    assert Get(d, Message) == Text(d.message) && Get(d, AgreedToTerms) == Flag(d.agreedToTerms);
    d.name != "" && d.email != "" && d.message != "" && d.agreedToTerms
  }

  /** Editing phone, subject, inquiry type or the volunteer flag never
      changes validity. */
  lemma OptionalFieldsIrrelevant(d: Draft, f: Field, v: Value)
    requires Fits(f, v) && !IsRequired(f)
    ensures IsFormValid(HandleInputChange(d, f, v)) == IsFormValid(d)
  {
    var r := HandleInputChange(d, f, v);
    assert Get(r, Name) == Get(d, Name);
    assert Get(r, Email) == Get(d, Email);
    assert Get(r, Message) == Get(d, Message);
    assert Get(r, AgreedToTerms) == Get(d, AgreedToTerms);
  }

  /** The values of `submitStatus`. */
  datatype SubmitStatus = Idle | Success | Error

  /** Page state: the draft, the in-flight flag and the status banner. */
  datatype Page = Page(draft: Draft, isSubmitting: bool, status: SubmitStatus)

  const InitialPage: Page := Page(InitialDraft, false, Idle)

  /** The Send button's `disabled` attribute: a submission is in flight or
      some required field is not truthy. */
  predicate SendDisabled(p: Page): (disabled: bool)
    ensures disabled <==> p.isSubmitting || exists f :: IsRequired(f) && !Truthy(Get(p.draft, f))
  {
    !IsFormValid(p.draft) || p.isSubmitting
  }

  /** `handleSubmit` up to the timer: it only runs when the enabled button
      is pressed; it marks the submission in flight and keeps the draft and
      the banner. */
  function BeginSubmit(p: Page): (r: Page)
    requires !SendDisabled(p)
    ensures r.isSubmitting && SendDisabled(r)
    ensures r.draft == p.draft && r.status == p.status
  {
    p.(isSubmitting := true)
  }

  /** The timer callback: submission ends, the banner turns to success and
      the draft goes back to its initial value, which is invalid, so Send is
      disabled again. */
  function CompleteSubmit(p: Page): (r: Page)
    requires p.isSubmitting
    ensures !r.isSubmitting && r.status == Success
    ensures r.draft == InitialDraft
    ensures SendDisabled(r) && !IsFormValid(r.draft)
  {
    Page(InitialDraft, false, Success)
  }

  /** What can happen on the page: a field edit, a press of Send, or the
      pending timer firing. */
  datatype Event = Input(f: Field, v: Value) | PressSend | TimerFires

  predicate WellTyped(e: Event)
  {
    e.Input? ==> Fits(e.f, e.v)
  }

  /** One event: a press of the disabled button and a timer with nothing
      pending are no-ops (the flag is true exactly while a timer is
      pending). */
  function Step(p: Page, e: Event): (r: Page)
    requires WellTyped(e)
    ensures e.Input? ==> r.isSubmitting == p.isSubmitting && r.status == p.status
    ensures r.status == Success <==> p.status == Success || (e == TimerFires && p.isSubmitting)
    ensures r.isSubmitting <==>
      (p.isSubmitting && e != TimerFires) || (e == PressSend && !SendDisabled(p))
  {
    match e
    case Input(f, v) => p.(draft := HandleInputChange(p.draft, f, v))
    case PressSend => if SendDisabled(p) then p else BeginSubmit(p)
    case TimerFires => if p.isSubmitting then CompleteSubmit(p) else p
  }

  /** A sequence of events, applied in order. */
  function Run(p: Page, es: seq<Event>): Page
    requires forall i :: 0 <= i < |es| ==> WellTyped(es[i])
    decreases |es|
  {
    if es == [] then p else Run(Step(p, es[0]), es[1..])
  }

  /** Nothing ever assigns 'error': from any page without the error banner,
      no sequence of events reaches it. */
  lemma {:induction false} RunNeverError(p: Page, es: seq<Event>)
    requires forall i :: 0 <= i < |es| ==> WellTyped(es[i])
    requires p.status != Error
    ensures Run(p, es).status != Error
    decreases |es|
  {
    if es != [] {
      RunNeverError(Step(p, es[0]), es[1..]);
    }
  }

  /** Once shown, the success banner stays, whatever follows. */
  lemma {:induction false} SuccessSticky(p: Page, es: seq<Event>)
    requires forall i :: 0 <= i < |es| ==> WellTyped(es[i])
    requires p.status == Success
    ensures Run(p, es).status == Success
    decreases |es|
  {
    if es != [] {
      SuccessSticky(Step(p, es[0]), es[1..]);
    }
  }

  /** From the initial page, the banner shows success iff some timer fired
      while a submission was in flight, and otherwise stays idle. */
  lemma {:induction false} StatusReflectsCompletion(p: Page, es: seq<Event>)
    requires forall i :: 0 <= i < |es| ==> WellTyped(es[i])
    requires p.status == Idle
    ensures Run(p, es).status == Idle || Run(p, es).status == Success
    ensures Run(p, es).status == Success <==> Completes(p, es)
    decreases |es|
  {
    if es != [] {
      var q := Step(p, es[0]);
      if q.status == Success {
        SuccessSticky(q, es[1..]);
      } else {
        StatusReflectsCompletion(q, es[1..]);
      }
    }
  }

  /** Some event of `es` is a timer firing while a submission is in
      flight. */
  predicate Completes(p: Page, es: seq<Event>)
    requires forall i :: 0 <= i < |es| ==> WellTyped(es[i])
    decreases |es|
  {
    if es == [] then false
    else (es[0] == TimerFires && p.isSubmitting) || Completes(Step(p, es[0]), es[1..])
  }

  /** The page with a sequence of `Input` events that fill the required
      fields and tick the terms box. */
  function FilledIn(name: string, email: string, message: string): seq<Event>
  {
    [Input(Name, Text(name)), Input(Email, Text(email)), Input(Message, Text(message)),
     Input(AgreedToTerms, Flag(true))]
  }

  /** A full round from the initial page: fill in, send, timer fires; the
      banner shows success, the draft is cleared and Send is disabled. */
  lemma SendRoundTrip(name: string, email: string, message: string)
    requires name != "" && email != "" && message != ""
    ensures !SendDisabled(Run(InitialPage, FilledIn(name, email, message)))
    ensures Run(InitialPage, FilledIn(name, email, message) + [PressSend, TimerFires])
         == Page(InitialDraft, false, Success)
  {
    var es := FilledIn(name, email, message);
    var p0 := Step(InitialPage, es[0]);
    var p1 := Step(p0, es[1]);
    var p2 := Step(p1, es[2]);
    var p3 := Step(p2, es[3]);
    assert p3 == Page(Draft(name, email, "", "", "", message, false, true), false, Idle);
    assert es[1..][1..] == es[2..] && es[2..][1..] == es[3..] && es[3..][1..] == [];
    assert Run(InitialPage, es) == Run(p0, es[1..]) == Run(p1, es[2..]) == Run(p2, es[3..]) == p3;
    RunAppend(InitialPage, es, [PressSend, TimerFires]);
    assert Run(p3, [PressSend, TimerFires]) == Page(InitialDraft, false, Success) by {
      assert [PressSend, TimerFires][1..][1..] == [];
    }
  }

  lemma {:induction false} RunAppend(p: Page, a: seq<Event>, b: seq<Event>)
    requires forall i :: 0 <= i < |a| ==> WellTyped(a[i])
    requires forall i :: 0 <= i < |b| ==> WellTyped(b[i])
    ensures forall i :: 0 <= i < |a + b| ==> WellTyped((a + b)[i])
    ensures Run(p, a + b) == Run(Run(p, a), b)
    decreases |a|
  {
    assert forall i :: 0 <= i < |a + b| ==> (a + b)[i] == if i < |a| then a[i] else b[i - |a|];
    if a != [] {
      RunAppend(Step(p, a[0]), a[1..], b);
      assert (a + b)[1..] == a[1..] + b;
    } else {
      assert a + b == b;
    }
  }
}

=== FILE: dashboard.dfy ===
/** The admin Dashboard: the CBO (community-based organisation) and staff
    collections, the statistic cards derived from them, the status badge
    colour and the dialog flags, the only state the page ever changes. */
module Dashboard {
  import opened Seqs

  /** The values of `CBO.status`. */
  datatype CboStatus = Active | Inactive

  /** The values of `TeamMember.status`. */
  datatype StaffStatus = StaffActive | StaffVolunteer

  function CboStatusName(s: CboStatus): string
  {
    match s
    case Active => "active"
    case Inactive => "inactive"
  }

  function StaffStatusName(s: StaffStatus): string
  {
    match s
    case StaffActive => "active"
    case StaffVolunteer => "volunteer"
  }

  /** An affiliated CBO. */
  datatype Cbo = Cbo(
    id: string,
    name: string,
    location: string,
    ward: string,
    members: int,
    contact: string,
    status: CboStatus,
    established: string,
    activities: seq<string>)

  /** A member of the organisation's own staff. */
  datatype StaffMember = StaffMember(
    id: string,
    name: string,
    position: string,
    email: string,
    phone: string,
    ward: string,
    status: StaffStatus)

  function Members(c: Cbo): int
  {
    c.members
  }

  const IsActive: Cbo -> bool := (c: Cbo) => c.status == Active

  const IsInactive: Cbo -> bool := (c: Cbo) => c.status == Inactive

  /** `totalMembers`: the `reduce` sum of `members` over the CBOs; with no
      negative member count the total is at least any single CBO's. */
  function TotalMembers(cbos: seq<Cbo>): (n: int)
    ensures cbos == [] ==> n == 0
    ensures (forall i :: 0 <= i < |cbos| ==> cbos[i].members >= 0) ==>
      n >= 0 && forall i :: 0 <= i < |cbos| ==> cbos[i].members <= n
  {
    assert (forall i :: 0 <= i < |cbos| ==> cbos[i].members >= 0) ==>
      forall i :: 0 <= i < |cbos| ==> cbos[i].members <= Sum(Members, cbos) by {
      if forall i :: 0 <= i < |cbos| ==> cbos[i].members >= 0 {
        forall i | 0 <= i < |cbos| ensures cbos[i].members <= Sum(Members, cbos) {
          SumAppend(Members, cbos[..i], cbos[i..]);
          assert cbos[..i] + cbos[i..] == cbos;
          SumNonNegative(Members, cbos[..i]);
          SumNonNegative(Members, cbos[i + 1..]);
          assert cbos[i..][1..] == cbos[i + 1..];
        }
      }
    }
    Sum(Members, cbos)
  }

  /** `activeCBOs`: the number of CBOs whose status is 'active'. */
  function ActiveCbos(cbos: seq<Cbo>): (n: nat)
    ensures n <= |cbos|
  {
    Count(IsActive, cbos)
  }

  /** Appending a CBO adds exactly its members to the total, and the total
      of non-negative member counts is non-negative. */
  lemma TotalMembersAppend(cbos: seq<Cbo>, c: Cbo)
    ensures TotalMembers(cbos + [c]) == TotalMembers(cbos) + c.members
    ensures (forall i :: 0 <= i < |cbos| ==> cbos[i].members >= 0) ==> TotalMembers(cbos) >= 0
  {
    SumAppend(Members, cbos, [c]);
    if forall i :: 0 <= i < |cbos| ==> cbos[i].members >= 0 {
      SumNonNegative(Members, cbos);
    }
  }

  /** Every CBO is counted as active or is inactive, and all are counted
      iff all are active. */
  lemma ActiveCbosBounds(cbos: seq<Cbo>)
    ensures ActiveCbos(cbos) + Count(IsInactive, cbos) == |cbos|
    ensures ActiveCbos(cbos) == |cbos| <==> forall i :: 0 <= i < |cbos| ==> cbos[i].status == Active
  {
    CountComplement(IsActive, IsInactive, cbos);
    CountAllIff(IsActive, cbos);
  }

  const Green: string := "bg-green-100 text-green-800"
  const Yellow: string := "bg-yellow-100 text-yellow-800"

  /** `getStatusColor`: green for 'active', yellow for any other value. */
  function StatusColor(status: string): (r: string)
    ensures r == Green <==> status == "active"
    ensures r == Yellow <==> status != "active"
  {
    if status == "active" then Green else Yellow
  }

  /** The badges the page draws: active CBOs and active staff are green,
      inactive CBOs and volunteers yellow. */
  lemma StatusBadges(s: CboStatus, t: StaffStatus)
    ensures StatusColor(CboStatusName(s)) == Green <==> s == Active
    ensures StatusColor(StaffStatusName(t)) == Green <==> t == StaffActive
  {
  }

  /** Page state: the two collections (never replaced, since neither
      setter is ever called) and the flags of the two dialogs. */
  datatype Page = Page(cbos: seq<Cbo>, team: seq<StaffMember>, isAddCboOpen: bool, isAddMemberOpen: bool)

  /** The computed statistic cards: CBO count with its active count, total
      members, and staff count. The fourth card ("Coverage Area") shows the
      literal 8, the number of council wards, and reads no state. */
  datatype Stats = Stats(totalCbos: nat, activeCbos: nat, totalMembers: int, teamSize: nat)

  function ComputeStats(p: Page): (st: Stats)
    ensures st.totalCbos == |p.cbos| && st.teamSize == |p.team|
    ensures st.activeCbos <= st.totalCbos
    ensures st.activeCbos == ActiveCbos(p.cbos) && st.totalMembers == TotalMembers(p.cbos)
  {
    Stats(|p.cbos|, ActiveCbos(p.cbos), TotalMembers(p.cbos), |p.team|)
  }

  /** What the page reacts to: the Add CBO dialog opening or closing, and
      its "Add CBO" footer button, which has no handler. */
  datatype Event = AddCboOpenChange(open: bool) | PressAddCbo

  function Step(p: Page, e: Event): (r: Page)
    ensures r.cbos == p.cbos && r.team == p.team && r.isAddMemberOpen == p.isAddMemberOpen
    ensures e.AddCboOpenChange? ==> r.isAddCboOpen == e.open
    ensures e == PressAddCbo ==> r == p
  {
    match e
    case AddCboOpenChange(open) => p.(isAddCboOpen := open)
    case PressAddCbo => p
  }

  function Run(p: Page, es: seq<Event>): Page
    decreases |es|
  {
    if es == [] then p else Run(Step(p, es[0]), es[1..])
  }

  /** No sequence of events changes the collections, so the statistics are
      constant. */
  lemma {:induction false} RunKeepsStats(p: Page, es: seq<Event>)
    ensures Run(p, es).cbos == p.cbos && Run(p, es).team == p.team
    ensures ComputeStats(Run(p, es)) == ComputeStats(p)
    decreases |es|
  {
    if es != [] {
      RunKeepsStats(Step(p, es[0]), es[1..]);
    }
  }

  /** The CBOs as the page hard-codes them. */
  const SampleCbos: seq<Cbo> := [
    Cbo("1", "Gaten Nature Park", "Dumun Village", "Ward 11", 45, "+675 7123 4567", Active, "2020",
      ["Forest Conservation", "Ecotourism", "Community Development"]),
    Cbo("2", "Mailbobo Wildlife and Nature Conservation", "Mailbobo", "Ward 9", 38, "+675 7234 5678",
      Active, "2020", ["Wildlife Protection", "Habitat Restoration"]),
    Cbo("3", "Whoty Nature Conservation", "Whoty", "Ward 10", 32, "+675 7345 6789", Active, "2021",
      ["Forest Conservation", "Community Training"]),
    Cbo("4", "Eveneku Natural Resource Management", "Eveneku", "Ward 12", 28, "+675 7456 7890",
      Active, "2021", ["Resource Management", "Sustainable Development"]),
    Cbo("5", "Keto Irafa Wildlife and Nature Conservation", "Keto Irafa", "Ward 14", 35,
      "+675 7567 8901", Active, "2020", ["Wildlife Conservation", "Ecotourism Development"])
  ]

  /** The staff as the page hard-codes them. */
  const SampleTeam: seq<StaffMember> := [
    StaffMember("1", "Mauro Okrupa", "Chairman & Executive Director", "mauro.okrupa@nari.gov.pg",
      "+675 7182 9634", "Ward 11", StaffActive),
    StaffMember("2", "Karl Kama", "Strategic Advisor", "karl.kama@nari.gov.pg",
      "+675 8170 0969", "Ward 11", StaffActive),
    StaffMember("3", "Paul Rudolph", "Sustainable Development Program Manager",
      "paul.rudolph@pumaenergy.com", "+675 7318 3614", "Ward 14", StaffVolunteer)
  ]

  const InitialPage: Page := Page(SampleCbos, SampleTeam, false, false)

  /** On the sample data the cards read 5 CBOs, all 5 active, 178 members
      and 3 staff, after any sequence of events. */
  lemma SampleStats(es: seq<Event>)
    ensures ComputeStats(Run(InitialPage, es)) == Stats(5, 5, 178, 3)
  {
    RunKeepsStats(InitialPage, es);
    assert TotalMembers(SampleCbos) == 178;
    assert ActiveCbos(SampleCbos) == 5;
  }
}

=== FILE: get_involved.dfy ===
/** The Get Involved page: the volunteer application draft, its field
    setters, the multi-select interest list, the Submit button's enabling
    condition and the two-event simulated submission. */
module GetInvolved {
  import opened Seqs

  /** The application draft (`formData`). */
  datatype Draft = Draft(
    name: string,
    email: string,
    phone: string,
    location: string,
    involvementType: string,
    skills: string,
    availability: string,
    experience: string,
    motivation: string,
    interests: seq<string>,
    agreedToTerms: bool)

  /** The draft the page starts with and that a completed submission
      restores. */
  const InitialDraft: Draft := Draft("", "", "", "", "", "", "", "", "", [], false)

  /** The draft's text fields, each edited by its own input control. */
  datatype TextField =
    | Name | Email | Phone | Location | InvolvementType
    | Skills | Availability | Experience | Motivation

  function GetText(d: Draft, f: TextField): string
  {
    match f
    case Name => d.name
    case Email => d.email
    case Phone => d.phone
    case Location => d.location
    case InvolvementType => d.involvementType
    case Skills => d.skills
    case Availability => d.availability
    case Experience => d.experience
    case Motivation => d.motivation
  }

  /** The `onChange` / `onValueChange` handler of a text field: the draft
      with exactly that field replaced. */
  function SetText(d: Draft, f: TextField, v: string): (r: Draft)
    ensures GetText(r, f) == v
    ensures forall g :: g != f ==> GetText(r, g) == GetText(d, g)
    ensures r.interests == d.interests && r.agreedToTerms == d.agreedToTerms
  {
    match f
    case Name => d.(name := v)
    case Email => d.(email := v)
    case Phone => d.(phone := v)
    case Location => d.(location := v)
    case InvolvementType => d.(involvementType := v)
    case Skills => d.(skills := v)
    case Availability => d.(availability := v)
    case Experience => d.(experience := v)
    case Motivation => d.(motivation := v)
  }

  /** The terms checkbox handler. */
  function SetAgreedToTerms(d: Draft, agreed: bool): (r: Draft)
    ensures r.agreedToTerms == agreed
    ensures forall g :: GetText(r, g) == GetText(d, g)
    ensures r.interests == d.interests
  {
    d.(agreedToTerms := agreed)
  }

  function IsNot(interest: string): string -> bool
  {
    (i: string) => i != interest
  }

  /** `handleInterestChange`: checking appends the interest (without looking
      for an earlier copy), unchecking removes every copy. */
  function HandleInterestChange(d: Draft, interest: string, checked: bool): (r: Draft)
    ensures forall g :: GetText(r, g) == GetText(d, g)
    ensures r.agreedToTerms == d.agreedToTerms
    ensures checked ==>
      |r.interests| == |d.interests| + 1
      && r.interests[..|d.interests|] == d.interests
      && r.interests[|d.interests|] == interest
    ensures !checked ==> interest !in r.interests
  {
    d.(interests :=
         if checked then d.interests + [interest]
         else Filter(IsNot(interest), d.interests))
  }

  /** Unchecking keeps every other interest, with its multiplicity and in
      order. */
  lemma UncheckKeepsOthers(d: Draft, interest: string)
    ensures IsSubsequence(HandleInterestChange(d, interest, false).interests, d.interests)
    ensures forall x :: x != interest ==>
      multiset(HandleInterestChange(d, interest, false).interests)[x] == multiset(d.interests)[x]
  {
    FilterIsSubsequence(IsNot(interest), d.interests);
    FilterMultiset(IsNot(interest), d.interests);
  }

  /** Nothing deduplicates: checking an interest that is already selected
      stores a second copy. */
  lemma CheckingTwiceDuplicates(d: Draft, interest: string)
    requires interest in d.interests
    ensures multiset(HandleInterestChange(d, interest, true).interests)[interest] >= 2
  {
    var r := HandleInterestChange(d, interest, true).interests;
    assert r == d.interests + [interest];
    assert multiset(r) == multiset(d.interests) + multiset{interest};
  }

  predicate NoDuplicates(s: seq<string>)
  {
    forall i, j :: 0 <= i < j < |s| ==> s[i] != s[j]
  }

  /** The checkbox reports the toggled state (`checked` is true exactly when
      the interest was not shown as selected), so clicking checkboxes never
      introduces a duplicate. */
  lemma CheckboxClickKeepsDistinct(d: Draft, interest: string, checked: bool)
    requires NoDuplicates(d.interests)
    requires checked == (interest !in d.interests)
    ensures NoDuplicates(HandleInterestChange(d, interest, checked).interests)
  {
    var r := HandleInterestChange(d, interest, checked).interests;
    if !checked {
      FilterIsSubsequence(IsNot(interest), d.interests);
      SubsequenceKeepsDistinct(r, d.interests);
    }
  }

  lemma {:induction false} SubsequenceKeepsDistinct(r: seq<string>, s: seq<string>)
    requires IsSubsequence(r, s) && NoDuplicates(s)
    ensures NoDuplicates(r)
    decreases |s|
  {
    if r != [] {
      assert NoDuplicates(s[1..]);
      if r[0] == s[0] && IsSubsequence(r[1..], s[1..]) {
        SubsequenceKeepsDistinct(r[1..], s[1..]);
        SubsequenceMembers(r[1..], s[1..]);
        forall j | 1 <= j < |r|
          ensures r[0] != r[j]
        {
          assert r[j] == r[1..][j - 1];
        }
      } else {
        SubsequenceKeepsDistinct(r, s[1..]);
      }
    }
  }

  lemma {:induction false} SubsequenceMembers(r: seq<string>, s: seq<string>)
    requires IsSubsequence(r, s)
    ensures forall i :: 0 <= i < |r| ==> r[i] in s
    decreases |s|
  {
    if r != [] {
      if r[0] == s[0] && IsSubsequence(r[1..], s[1..]) {
        SubsequenceMembers(r[1..], s[1..]);
        forall i | 1 <= i < |r|
          ensures r[i] in s
        {
          assert r[i] == r[1..][i - 1];
        }
      } else {
        SubsequenceMembers(r, s[1..]);
      }
    }
  }

  /** Page state: the draft, the in-flight flag and the highlighted
      involvement card (`selectedInvolvement`, kept apart from the draft). */
  datatype Page = Page(draft: Draft, isSubmitting: bool, selectedInvolvement: string)

  const InitialPage: Page := Page(InitialDraft, false, "")

  /** The text fields the button requires. */
  predicate IsRequired(f: TextField)
  {
    f == Name || f == Email || f == Motivation
  }

  /** The Submit button is enabled (its `disabled` expression is false):
      every required text field is non-empty, the terms are accepted and
      nothing is in flight; the other text fields and the interests play no
      part. */
  predicate CanSubmit(p: Page): (enabled: bool)
    ensures enabled <==>
      (forall f :: IsRequired(f) ==> GetText(p.draft, f) != "")
      && p.draft.agreedToTerms && !p.isSubmitting
  {
    assert GetText(p.draft, Name) == p.draft.name && GetText(p.draft, Email) == p.draft.email;
    assert GetText(p.draft, Motivation) == p.draft.motivation;
    p.draft.name != "" && p.draft.email != "" && p.draft.motivation != ""
      && p.draft.agreedToTerms && !p.isSubmitting
  }

  /** Editing a field the button does not look at, or the interests, never
      changes whether Submit is enabled. */
  lemma OptionalEditsKeepCanSubmit(p: Page, f: TextField, v: string, interest: string, checked: bool)
    requires !IsRequired(f)
    ensures CanSubmit(p.(draft := SetText(p.draft, f, v))) == CanSubmit(p)
    ensures CanSubmit(p.(draft := HandleInterestChange(p.draft, interest, checked))) == CanSubmit(p)
  {
    assert GetText(SetText(p.draft, f, v), Name) == p.draft.name;
    assert GetText(SetText(p.draft, f, v), Email) == p.draft.email;
    assert GetText(SetText(p.draft, f, v), Motivation) == p.draft.motivation;
    var d' := HandleInterestChange(p.draft, interest, checked);
    assert GetText(d', Name) == p.draft.name;
    assert GetText(d', Email) == p.draft.email;
    assert GetText(d', Motivation) == p.draft.motivation;
  }

  /** No trimming: a single space counts as a filled-in field. */
  lemma WhitespaceCountsAsFilled(p: Page)
    requires p.draft.agreedToTerms && !p.isSubmitting
    requires p.draft.name == " " && p.draft.email == " " && p.draft.motivation == " "
    ensures CanSubmit(p)
  {
  }

  /** Clicking an involvement card only moves the highlight. */
  function SelectInvolvement(p: Page, id: string): (r: Page)
    ensures r.selectedInvolvement == id
    ensures r.draft == p.draft && r.isSubmitting == p.isSubmitting
  {
    p.(selectedInvolvement := id)
  }

  /** `handleSubmit` up to the timer: the button can only fire while
      enabled; the draft is kept and the button disables itself, so at most
      one submission is in flight. */
  function BeginSubmit(p: Page): (r: Page)
    requires CanSubmit(p)
    ensures r.isSubmitting
    ensures r.draft == p.draft && r.selectedInvolvement == p.selectedInvolvement
    ensures !CanSubmit(r)
  {
    p.(isSubmitting := true)
  }

  /** The timer callback: submission ends and the draft goes back to its
      initial value, whatever was typed meanwhile. */
  function CompleteSubmit(p: Page): (r: Page)
    requires p.isSubmitting
    ensures !r.isSubmitting
    ensures r.draft == InitialDraft
    ensures r.selectedInvolvement == p.selectedInvolvement
    ensures !CanSubmit(r)
  {
    p.(isSubmitting := false, draft := InitialDraft)
  }

  /** A complete application can be submitted once the terms are ticked;
      unticking the terms disables Submit. */
  lemma SubmitScenario(p: Page)
    requires !p.isSubmitting
    requires p.draft.name != "" && p.draft.email != "" && p.draft.motivation != ""
    ensures CanSubmit(p) <==> p.draft.agreedToTerms
    ensures !CanSubmit(p.(draft := SetAgreedToTerms(p.draft, false)))
  {
  }
}

=== FILE: news.dfy ===
/** The News & Publications page: the three-way search/category/type filter,
    the Clear Filters reset, the type-label formatter and the type badge
    colour. */
module News {
  import opened Seqs
  import opened Text

  /** The item kinds of the `NewsItem.type` union. */
  datatype NewsType = NewsArticle | Publication | PressRelease

  /** The string literal the source uses for each kind. */
  function TypeName(t: NewsType): string
  {
    match t
    case NewsArticle => "news"
    case Publication => "publication"
    case PressRelease => "press-release"
  }

  /** A news record; the image URL and download link are presentation only. */
  datatype NewsItem = NewsItem(
    id: string,
    title: string,
    description: string,
    category: string,
    date: string,
    newsType: NewsType)

  /** The page's filter state: search term, selected category and type. */
  datatype Criteria = Criteria(searchTerm: string, category: string, newsType: string)

  /** The sentinel meaning "no constraint" for category and type. */
  const All: string := "all"

  /** Criteria the page starts with and that Clear Filters restores. */
  const ClearedCriteria: Criteria := Criteria("", All, All)

  predicate MatchesSearch(item: NewsItem, term: string)
  {
    Includes(ToLower(item.title), ToLower(term))
      || Includes(ToLower(item.description), ToLower(term))
  }

  predicate MatchesCategory(item: NewsItem, category: string)
  {
    category == All || item.category == category
  }

  predicate MatchesType(item: NewsItem, newsType: string)
  {
    newsType == All || TypeName(item.newsType) == newsType
  }

  predicate Keep(c: Criteria, item: NewsItem)
  {
    MatchesSearch(item, c.searchTerm) && MatchesCategory(item, c.category)
      && MatchesType(item, c.newsType)
  }

  /** `filteredNews`: the items meeting all three criteria, in list order;
      an item is kept iff it is in the list and meets them. */
  function FilterNews(items: seq<NewsItem>, c: Criteria): (r: seq<NewsItem>)
    ensures |r| <= |items|
    ensures forall x :: x in r <==> x in items && Keep(c, x)
  {
    FilterMembers(item => Keep(c, item), items);
    Filter(item => Keep(c, item), items)
  }

  /** An item is shown iff it is in the list, the lower-cased search term
      occurs in its lower-cased title or description, and its category and
      type agree with the selection unless that selection is "all"; each
      shown item appears exactly as often as in the list. */
  lemma FilterNewsKeeps(items: seq<NewsItem>, c: Criteria)
    ensures |FilterNews(items, c)| <= |items|
    ensures forall x :: x in FilterNews(items, c) <==>
      x in items
      && (IsInfix(ToLower(c.searchTerm), ToLower(x.title))
          || IsInfix(ToLower(c.searchTerm), ToLower(x.description)))
      && (c.category == All || x.category == c.category)
      && (c.newsType == All || TypeName(x.newsType) == c.newsType)
    ensures forall x :: multiset(FilterNews(items, c))[x] ==
                        (if Keep(c, x) then multiset(items)[x] else 0)
  {
    SearchIsInfixAll(c.searchTerm);
    FilterMembers(item => Keep(c, item), items);
    FilterMultiset(item => Keep(c, item), items);
  }

  /** The search matches iff the lower-cased term occurs in the lower-cased
      title or the lower-cased description. */
  lemma SearchIsInfix(item: NewsItem, term: string)
    ensures MatchesSearch(item, term) <==>
      IsInfix(ToLower(term), ToLower(item.title))
      || IsInfix(ToLower(term), ToLower(item.description))
  {
  }

  lemma SearchIsInfixAll(term: string)
    ensures forall item :: MatchesSearch(item, term) <==>
      IsInfix(ToLower(term), ToLower(item.title))
      || IsInfix(ToLower(term), ToLower(item.description))
  {
    forall item {
      SearchIsInfix(item, term);
    }
  }

  /** The filtered list keeps the original relative order. */
  lemma FilterNewsIsSubsequence(items: seq<NewsItem>, c: Criteria)
    ensures IsSubsequence(FilterNews(items, c), items)
  {
    FilterIsSubsequence(item => Keep(c, item), items);
  }

  /** An empty search term matches every item. */
  lemma EmptySearchMatches(item: NewsItem)
    ensures MatchesSearch(item, "")
  {
    IncludesEmpty(ToLower(item.title));
  }

  /** Search is case-insensitive: terms with the same lower-case form match
      the same items, and an item whose title or description differ only in
      case matches the same terms. */
  lemma SearchIgnoresCase(item: NewsItem, item': NewsItem, term: string, term': string)
    requires ToLower(term) == ToLower(term')
    requires ToLower(item.title) == ToLower(item'.title)
    requires ToLower(item.description) == ToLower(item'.description)
    ensures MatchesSearch(item, term) <==> MatchesSearch(item', term')
  {
  }

  /** Clear Filters restores criteria under which every item is shown. */
  lemma {:induction false} ClearedShowsAll(items: seq<NewsItem>)
    ensures FilterNews(items, ClearedCriteria) == items
  {
    forall i | 0 <= i < |items| {
      EmptySearchMatches(items[i]);
    }
    FilterAll(item => Keep(ClearedCriteria, item), items);
  }

  /** A category no item carries (other than the sentinel) shows nothing. */
  lemma UnknownCategoryShowsNothing(items: seq<NewsItem>, c: Criteria)
    requires c.category != All
    requires forall i :: 0 <= i < |items| ==> items[i].category != c.category
    ensures FilterNews(items, c) == []
  {
    FilterNone(item => Keep(c, item), items);
  }

  /** A type no item carries (other than the sentinel) shows nothing. */
  lemma UnknownTypeShowsNothing(items: seq<NewsItem>, c: Criteria)
    requires c.newsType != All
    requires forall i :: 0 <= i < |items| ==> TypeName(items[i].newsType) != c.newsType
    ensures FilterNews(items, c) == []
  {
    FilterNone(item => Keep(c, item), items);
  }

  /** Criteria at least as tight as `c` (the same search term, and a
      category and type that equal c's wherever c's is not "all") show a
      subsequence of what `c` shows, so never more items. */
  lemma TighterCriteriaShrink(items: seq<NewsItem>, c: Criteria, c': Criteria)
    requires c'.searchTerm == c.searchTerm
    requires c.category == All || c'.category == c.category
    requires c.newsType == All || c'.newsType == c.newsType
    ensures IsSubsequence(FilterNews(items, c'), FilterNews(items, c))
    ensures |FilterNews(items, c')| <= |FilterNews(items, c)|
  {
    var p := (item: NewsItem) => Keep(c, item);
    var q := (item: NewsItem) => Keep(c', item);
    assert FilterNews(items, c) == Filter(p, items);
    assert FilterNews(items, c') == Filter(q, items);
    FilterMonotone(p, q, items);
  }

  /** Applying the category criterion and then the type criterion is the
      same as applying both at once. */
  lemma CategoryThenType(items: seq<NewsItem>, term: string, category: string, newsType: string)
    ensures FilterNews(FilterNews(items, Criteria(term, category, All)), Criteria("", All, newsType))
         == FilterNews(items, Criteria(term, category, newsType))
  {
    var c1, c2, c3 := Criteria(term, category, All), Criteria("", All, newsType), Criteria(term, category, newsType);
    var p := (item: NewsItem) => Keep(c1, item);
    var q := (item: NewsItem) => Keep(c2, item);
    var pq := (item: NewsItem) => p(item) && q(item);
    var k := (item: NewsItem) => Keep(c3, item);
    FilterCompose(p, q, pq, items);
    forall i | 0 <= i < |items|
      ensures pq(items[i]) <==> k(items[i])
    {
      EmptySearchMatches(items[i]);
    }
    FilterExtensional(pq, k, items);
    assert FilterNews(items, c1) == Filter(p, items);
    assert FilterNews(Filter(p, items), c2) == Filter(q, Filter(p, items));
  }

  /** The badge label of a type (`type.replace('-', ' ')` followed by
      upper-casing each word's first letter). */
  function TypeLabel(t: string): (r: string)
    ensures |r| == |t|
    ensures forall i :: 0 <= i < |t| && t[i] != '-' ==> ToLowerChar(r[i]) == ToLowerChar(t[i])
    ensures forall i :: 0 <= i < |t| && t[i] == '-' ==> r[i] == (if '-' in t[..i] then '-' else ' ')
    ensures forall i :: 0 <= i < |t| && t[i] != '-' ==>
      r[i] == if AtWordStart(t, i) then ToUpperChar(t[i]) else t[i]
  {
    ReplaceFirstWordStarts(t, '-', ' ');
    CapitalizeWords(ReplaceFirst(t, '-', ' '))
  }

  /** A single lower-case word gets its first letter upper-cased. */
  lemma TypeLabelWord(w: string)
    requires IsLowerWord(w)
    ensures TypeLabel(w) == [ToUpperChar(w[0])] + w[1..]
  {
    ReplaceFirstAbsent(w, '-', ' ');
    CapitalizeLowerWord(w);
  }

  /** Two lower-case words joined by a hyphen become two capitalised words
      joined by a space. */
  lemma TypeLabelHyphenated(a: string, b: string)
    requires IsLowerWord(a) && IsLowerWord(b)
    ensures TypeLabel(a + "-" + b) == [ToUpperChar(a[0])] + a[1..] + " " + [ToUpperChar(b[0])] + b[1..]
  {
    ReplaceFirstSplit(a, b, '-', ' ');
    assert a + "-" + b == a + ['-'] + b;
    assert a + [' '] + b == a + " " + b;
    CapitalizeTwoLowerWords(a, b);
  }

  /** The label of an entry of the type drop-down: the sentinel reads
      "All Types", everything else goes through `TypeLabel`. */
  function TypeOptionLabel(t: string): (r: string)
    ensures t == All ==> r == "All Types"
    ensures t != All ==> |r| == |t|
    ensures t != All ==> forall i :: 0 <= i < |t| && t[i] == '-' ==>
      r[i] == (if '-' in t[..i] then '-' else ' ')
    ensures t != All ==> forall i :: 0 <= i < |t| && t[i] != '-' ==>
      r[i] == if AtWordStart(t, i) then ToUpperChar(t[i]) else t[i]
  {
    if t == All then "All Types" else TypeLabel(t)
  }

  /** The drop-down entries for the three item kinds read like their badges. */
  lemma TypeOptionLabels()
    ensures TypeOptionLabel("news") == "News"
    ensures TypeOptionLabel("publication") == "Publication"
    ensures TypeOptionLabel("press-release") == "Press Release"
  {
    TypeLabelNews();
    TypeLabelPublication();
    TypeLabelPressRelease();
  }

  /** The labels the source renders for its three item kinds. */
  lemma TypeLabelPressRelease()
    ensures TypeLabel("press-release") == "Press Release"
  {
    TypeLabelTwoWords("press", "release", "press-release", "Press Release");
  }

  lemma TypeLabelTwoWords(a: string, b: string, t: string, shown: string)
    requires IsLowerWord(a) && IsLowerWord(b) && t == a + "-" + b
    requires shown == [ToUpperChar(a[0])] + a[1..] + " " + [ToUpperChar(b[0])] + b[1..]
    ensures TypeLabel(t) == shown
  {
    TypeLabelHyphenated(a, b);
  }

  lemma TypeLabelOneWord(w: string, shown: string)
    requires IsLowerWord(w)
    requires shown == [ToUpperChar(w[0])] + w[1..]
    ensures TypeLabel(w) == shown
  {
    TypeLabelWord(w);
  }

  lemma TypeLabelNews()
    ensures TypeLabel("news") == "News"
  {
    TypeLabelOneWord("news", "News");
  }

  lemma TypeLabelPublication()
    ensures TypeLabel("publication") == "Publication"
  {
    TypeLabelOneWord("publication", "Publication");
  }

  /** The badge classes for a value no case names. */
  const Gray: string := "bg-gray-100 text-gray-800"

  /** `getTypeColor`: badge classes by type, grey for anything unknown. */
  function TypeColor(t: string): (r: string)
    ensures t !in {"news", "publication", "press-release"} ==> r == Gray
  {
    match t
    case "news" => "bg-blue-100 text-blue-800"
    case "publication" => "bg-green-100 text-green-800"
    case "press-release" => "bg-purple-100 text-purple-800"
    case _ => Gray
  }

  /** The three item kinds get three distinct, non-grey badge colours. */
  lemma TypeColorsDistinct(t: NewsType, u: NewsType)
    ensures TypeColor(TypeName(t)) != Gray
    ensures t != u ==> TypeColor(TypeName(t)) != TypeColor(TypeName(u))
  {
  }
}

=== FILE: projects.dfy ===
/** The Projects page: the category filter, the statistic cards computed over
    the whole portfolio, and the status badge colour. */
module Projects {
  import opened Seqs

  /** The values of the `Project.status` union. */
  datatype Status = Completed | Ongoing | Planned

  /** The string literal the source uses for each status. */
  function StatusName(s: Status): string
  {
    match s
    case Completed => "completed"
    case Ongoing => "ongoing"
    case Planned => "planned"
  }

  /** A project record; long prose fields (description, outcomes, details,
      image, budget) are presentation only. */
  datatype Project = Project(
    id: string,
    title: string,
    category: string,
    status: Status,
    year: string,
    location: string,
    beneficiaries: int,
    partners: seq<string>)

  /** The sentinel category meaning "every project". */
  const All: string := "all"

  function InCategory(c: string): Project -> bool
  {
    (p: Project) => p.category == c
  }

  /** `filteredProjects`: everything for "all", otherwise the projects of the
      selected category in portfolio order. */
  function FilterProjects(projects: seq<Project>, selected: string): (r: seq<Project>)
    ensures selected == All ==> r == projects
    ensures selected != All ==> forall i :: 0 <= i < |r| ==> r[i].category == selected
    ensures |r| <= |projects|
  {
    if selected == All then projects
    else Filter(InCategory(selected), projects)
  }

  /** Any selection shows an order-preserving subsequence; a project is
      shown iff it is in the portfolio and the selection is "all" or its
      category, and then exactly as often as it occurs in the portfolio. */
  lemma FilterProjectsKeeps(projects: seq<Project>, selected: string)
    ensures IsSubsequence(FilterProjects(projects, selected), projects)
    ensures forall x :: x in FilterProjects(projects, selected) <==>
      x in projects && (selected == All || x.category == selected)
    ensures forall x :: multiset(FilterProjects(projects, selected))[x] ==
                        (if selected == All || x.category == selected then multiset(projects)[x] else 0)
  {
    if selected == All {
      SubsequenceReflexive(projects);
    } else {
      FilterIsSubsequence(InCategory(selected), projects);
      FilterMembers(InCategory(selected), projects);
      FilterMultiset(InCategory(selected), projects);
    }
  }

  /** The four statistic cards. */
  datatype Stats = Stats(total: nat, completed: nat, ongoing: nat, totalBeneficiaries: int)

  function HasStatus(s: Status): Project -> bool
  {
    (p: Project) => p.status == s
  }

  function Beneficiaries(p: Project): int
  {
    p.beneficiaries
  }

  /** `projectStats`, computed from the full portfolio. */
  function ComputeStats(projects: seq<Project>): (st: Stats)
    ensures st.total == |projects|
    ensures st.completed + st.ongoing <= st.total
  {
    CountDisjoint(HasStatus(Completed), HasStatus(Ongoing), projects);
    Stats(|projects|, Count(HasStatus(Completed), projects),
          Count(HasStatus(Ongoing), projects), Sum(Beneficiaries, projects))
  }

  /** Page state: the portfolio is a constant, only the selection changes. */
  datatype Page = Page(projects: seq<Project>, selectedCategory: string)

  /** Clicking a category button. */
  function SelectCategory(page: Page, category: string): (r: Page)
    ensures r.projects == page.projects
    ensures r.selectedCategory == category
  {
    page.(selectedCategory := category)
  }

  /** The cards read the whole portfolio, so no selection changes them. */
  lemma StatsIgnoreSelection(page: Page, category: string)
    ensures ComputeStats(SelectCategory(page, category).projects) == ComputeStats(page.projects)
  {
  }

  /** The statistics in one pass over the portfolio, as an incremental
      alternative to the four separate traversals. */
  method StatsOnePass(projects: seq<Project>) returns (st: Stats)
    ensures st == ComputeStats(projects)
  {
    var completed, ongoing, beneficiaries := 0, 0, 0;
    var i := 0;
    while i < |projects|
      invariant 0 <= i <= |projects|
      invariant completed == Count(HasStatus(Completed), projects[..i])
      invariant ongoing == Count(HasStatus(Ongoing), projects[..i])
      invariant beneficiaries == Sum(Beneficiaries, projects[..i])
    {
      var p := projects[i];
      assert projects[..i + 1] == projects[..i] + [p];
      FilterAppend(HasStatus(Completed), projects[..i], [p]);
      FilterAppend(HasStatus(Ongoing), projects[..i], [p]);
      SumAppend(Beneficiaries, projects[..i], [p]);
      if p.status == Completed {
        completed := completed + 1;
      } else if p.status == Ongoing {
        ongoing := ongoing + 1;
      }
      beneficiaries := beneficiaries + p.beneficiaries;
      i := i + 1;
    }
    assert projects[..i] == projects;
    st := Stats(|projects|, completed, ongoing, beneficiaries);
  }

  /** The badge classes for a value no case names. */
  const Gray: string := "bg-gray-100 text-gray-800"

  /** `getStatusColor`: badge classes by status, grey for anything else. */
  function StatusColor(status: string): (r: string)
    ensures status !in {"completed", "ongoing", "planned"} ==> r == Gray
  {
    match status
    case "completed" => "bg-green-100 text-green-800"
    case "ongoing" => "bg-blue-100 text-blue-800"
    case "planned" => "bg-yellow-100 text-yellow-800"
    case _ => Gray
  }

  /** The three statuses get three distinct, non-grey colours. */
  lemma StatusColorsDistinct(s: Status, t: Status)
    ensures StatusColor(StatusName(s)) != Gray
    ensures s != t ==> StatusColor(StatusName(s)) != StatusColor(StatusName(t))
  {
  }

  /** The portfolio as the page hard-codes it. */
  const SampleProjects: seq<Project> := [
    Project("1", "Forest Boundary GPS Mapping", "Conservation", Completed, "2020-2022",
      "Kakondo Protected Area", 18000, ["Local Youth Groups", "Seven Tribal Groups"]),
    Project("2", "Irish Potato Farm Management Training", "Agriculture", Completed, "2021",
      "Dumun Village", 45, ["PNG NARI", "Sinesine Yongomugl Farmers Association"]),
    Project("3", "Climate Resilient Model Farms", "Agriculture", Ongoing, "2024-2025",
      "Ward 14 Tabare LLG, Ward 6 Chuave LLG", 120,
      ["Simbu Provincial Department of Agriculture", "Tabare LLG"]),
    Project("4", "Eco-Lodge Construction & Trail Development", "Tourism", Ongoing, "2022-2025",
      "Kakondo Forest Area", 200, ["Seven Tribal Youth Groups", "Traditional Leaders"]),
    Project("5", "Community Beautification Program", "Community Development", Completed, "2023",
      "Kaubasis Village", 85, ["Local Mothers Groups", "Youth Volunteers"]),
    Project("6", "Water Supply System Maintenance", "Infrastructure", Completed, "2023",
      "Dumun Village", 300, ["Village Council", "Technical Volunteers"]),
    Project("7", "Organizational Constitution & Roadmap", "Governance", Completed, "2023",
      "Kakondo Area", 18000, ["Community Leaders", "Traditional Chiefs"]),
    Project("8", "Protected Area Network Participation", "Partnership", Ongoing, "2024-2025",
      "PNG National Level", 50000, ["CEPA", "UNDP", "Mt Wilhelm Protected Area"])
  ]

  function Ids(projects: seq<Project>): seq<string>
  {
    if projects == [] then [] else [projects[0].id] + Ids(projects[1..])
  }

  /** On the sample portfolio the cards read 8 projects, 5 completed,
      3 ongoing and 86,750 beneficiaries. */
  lemma SampleStats()
    ensures ComputeStats(SampleProjects) == Stats(8, 5, 3, 86750)
  {
    var s := SampleProjects;
    assert Count(HasStatus(Completed), s) == 5;
    assert Count(HasStatus(Ongoing), s) == 3;
  }

  /** On the sample portfolio "Agriculture" shows exactly projects 2 and 3. */
  lemma SampleAgriculture()
    ensures Ids(FilterProjects(SampleProjects, "Agriculture")) == ["2", "3"]
  {
  }
}

=== FILE: seqs.dfy ===
/** Generic sequence operations shared by every page: the stable filter behind
    JavaScript's `Array.prototype.filter`, `filter(..).length` counts and
    `reduce` sums, together with an order-preserving subsequence relation
    that serves as their reference specification. */
module Seqs {

  /** `r` can be obtained from `s` by deleting elements, keeping order. */
  predicate IsSubsequence<T(==)>(r: seq<T>, s: seq<T>)
    decreases |s|
  {
    if r == [] then true
    else if s == [] then false
    else (r[0] == s[0] && IsSubsequence(r[1..], s[1..])) || IsSubsequence(r, s[1..])
  }

  /** The elements of `s` satisfying `p`, in their original order
      (`s.filter(p)`). */
  function Filter<T(==,!new)>(p: T -> bool, s: seq<T>): (r: seq<T>)
    ensures |r| <= |s|
    ensures forall i :: 0 <= i < |r| ==> p(r[i])
  {
    if s == [] then []
    else
      var rest := Filter(p, s[1..]);
      if p(s[0]) then [s[0]] + rest else rest
  }

  /** Each value occurs in the filtered sequence exactly as often as in `s`
      when it satisfies `p`, and not at all otherwise. */
  lemma {:induction false} FilterMultiset<T(!new)>(p: T -> bool, s: seq<T>)
    ensures forall x :: multiset(Filter(p, s))[x] == if p(x) then multiset(s)[x] else 0
  {
    if s != [] {
      FilterMultiset(p, s[1..]);
      assert s == [s[0]] + s[1..];
    }
  }

  /** A value is kept iff it occurs in `s` and satisfies `p`. */
  lemma FilterMembers<T(!new)>(p: T -> bool, s: seq<T>)
    ensures forall x :: x in Filter(p, s) <==> x in s && p(x)
  {
    FilterMultiset(p, s);
    forall x
      ensures x in Filter(p, s) <==> x in s && p(x)
    {
      assert x in Filter(p, s) <==> x in multiset(Filter(p, s));
      assert x in s <==> x in multiset(s);
    }
  }

  /** Number of elements of `s` satisfying `p` (`s.filter(p).length`). */
  function Count<T(==,!new)>(p: T -> bool, s: seq<T>): (n: nat)
  {
    |Filter(p, s)|
  }

  /** Sum of `f` over `s` (`s.reduce((acc, x) => acc + f(x), 0)`). */
  function Sum<T>(f: T -> int, s: seq<T>): int
  {
    if s == [] then 0 else f(s[0]) + Sum(f, s[1..])
  }

  lemma {:induction false} FilterIsSubsequence<T(!new)>(p: T -> bool, s: seq<T>)
    ensures IsSubsequence(Filter(p, s), s)
  {
    if s != [] {
      FilterIsSubsequence(p, s[1..]);
      var rest := Filter(p, s[1..]);
      if p(s[0]) {
        assert ([s[0]] + rest)[1..] == rest;
      } else {
        SubsequenceDropHead(rest, s);
      }
    }
  }

  /** A subsequence of the tail is a subsequence of the whole. */
  lemma {:induction false} SubsequenceDropHead<T(!new)>(r: seq<T>, s: seq<T>)
    requires s != []
    requires IsSubsequence(r, s[1..])
    ensures IsSubsequence(r, s)
  {
  }

  lemma {:induction false} SubsequenceReflexive<T(!new)>(s: seq<T>)
    ensures IsSubsequence(s, s)
  {
    if s != [] {
      SubsequenceReflexive(s[1..]);
    }
  }

  /** Filtering with a predicate every element satisfies is the identity. */
  lemma {:induction false} FilterAll<T(!new)>(p: T -> bool, s: seq<T>)
    requires forall i :: 0 <= i < |s| ==> p(s[i])
    ensures Filter(p, s) == s
  {
    if s != [] {
      FilterAll(p, s[1..]);
      assert s == [s[0]] + s[1..];
    }
  }

  /** Filtering with a predicate no element satisfies yields nothing. */
  lemma {:induction false} FilterNone<T(!new)>(p: T -> bool, s: seq<T>)
    requires forall i :: 0 <= i < |s| ==> !p(s[i])
    ensures Filter(p, s) == []
  {
    if s != [] {
      FilterNone(p, s[1..]);
    }
  }

  /** Filtering by `p` and then by `q` keeps exactly what their conjunction
      `pq` keeps. */
  lemma {:induction false} FilterCompose<T(!new)>(p: T -> bool, q: T -> bool, pq: T -> bool, s: seq<T>)
    requires forall x :: pq(x) <==> p(x) && q(x)
    ensures Filter(q, Filter(p, s)) == Filter(pq, s)
  {
    if s != [] {
      FilterCompose(p, q, pq, s[1..]);
      if p(s[0]) {
        assert ([s[0]] + Filter(p, s[1..]))[1..] == Filter(p, s[1..]);
      }
    }
  }

  /** A stronger predicate keeps a subsequence of what a weaker one keeps. */
  lemma {:induction false} FilterMonotone<T(!new)>(p: T -> bool, q: T -> bool, s: seq<T>)
    requires forall x :: q(x) ==> p(x)
    ensures IsSubsequence(Filter(q, s), Filter(p, s))
    ensures |Filter(q, s)| <= |Filter(p, s)|
  {
    if s != [] {
      FilterMonotone(p, q, s[1..]);
      var rp, rq := Filter(p, s[1..]), Filter(q, s[1..]);
      if q(s[0]) {
        assert ([s[0]] + rq)[1..] == rq;
        assert ([s[0]] + rp)[1..] == rp;
      } else if p(s[0]) {
        assert ([s[0]] + rp)[1..] == rp;
        SubsequenceDropHead(rq, [s[0]] + rp);
      }
    }
  }

  /** Filters by pointwise-equal predicates agree. */
  lemma {:induction false} FilterExtensional<T(!new)>(p: T -> bool, q: T -> bool, s: seq<T>)
    requires forall i :: 0 <= i < |s| ==> (p(s[i]) <==> q(s[i]))
    ensures Filter(p, s) == Filter(q, s)
  {
    if s != [] {
      FilterExtensional(p, q, s[1..]);
    }
  }

  /** Elements kept by two predicates that never hold together are at most
      all of `s`. */
  lemma {:induction false} CountDisjoint<T(!new)>(p: T -> bool, q: T -> bool, s: seq<T>)
    requires forall x :: !(p(x) && q(x))
    ensures Count(p, s) + Count(q, s) <= |s|
  {
    if s != [] {
      CountDisjoint(p, q, s[1..]);
    }
  }

  /** Every element is counted by `p` or by its negation `np`, never
      both. */
  lemma {:induction false} CountComplement<T(!new)>(p: T -> bool, np: T -> bool, s: seq<T>)
    requires forall x :: np(x) <==> !p(x)
    ensures Count(p, s) + Count(np, s) == |s|
  {
    if s != [] {
      CountComplement(p, np, s[1..]);
    }
  }

  /** Every element is counted iff every element satisfies `p`. */
  lemma {:induction false} CountAllIff<T(!new)>(p: T -> bool, s: seq<T>)
    ensures Count(p, s) == |s| <==> forall i :: 0 <= i < |s| ==> p(s[i])
  {
    if s != [] {
      CountAllIff(p, s[1..]);
      if forall i :: 0 <= i < |s| ==> p(s[i]) {
        assert forall i :: 0 <= i < |s[1..]| ==> p(s[1..][i]) by {
          forall i | 0 <= i < |s[1..]| ensures p(s[1..][i]) { assert s[1..][i] == s[i + 1]; }
        }
      } else if p(s[0]) {
        var i :| 0 <= i < |s| && !p(s[i]);
        assert s[1..][i - 1] == s[i];
      }
    }
  }

  lemma {:induction false} FilterAppend<T(!new)>(p: T -> bool, a: seq<T>, b: seq<T>)
    ensures Filter(p, a + b) == Filter(p, a) + Filter(p, b)
  {
    if a == [] {
      assert a + b == b;
    } else {
      FilterAppend(p, a[1..], b);
      assert (a + b)[1..] == a[1..] + b;
    }
  }

  lemma {:induction false} SumAppend<T>(f: T -> int, a: seq<T>, b: seq<T>)
    ensures Sum(f, a + b) == Sum(f, a) + Sum(f, b)
  {
    if a == [] {
      assert a + b == b;
    } else {
      SumAppend(f, a[1..], b);
      assert (a + b)[1..] == a[1..] + b;
    }
  }

  lemma {:induction false} SumNonNegative<T>(f: T -> int, s: seq<T>)
    requires forall i :: 0 <= i < |s| ==> f(s[i]) >= 0
    ensures Sum(f, s) >= 0
  {
    if s != [] {
      SumNonNegative(f, s[1..]);
    }
  }
}

=== FILE: team.dfy ===
/** The Team page: the member list, its split into the three displayed
    groups, and the type label and badge colour lookups. */
module Team {
  import opened Seqs

  /** The values of the `TeamMember.type` union. */
  datatype MemberType = Executive | Board | Volunteer | ProgramStaff

  /** The string literal the source uses for each type. */
  function TypeName(t: MemberType): string
  {
    match t
    case Executive => "executive"
    case Board => "board"
    case Volunteer => "volunteer"
    case ProgramStaff => "program"
  }

  /** A team member; qualification, specialization, background and image
      are presentation only. */
  datatype TeamMember = TeamMember(
    id: string,
    name: string,
    position: string,
    age: int,
    gender: string,
    email: string,
    phone: string,
    memberType: MemberType)

  function OfType(t: MemberType): TeamMember -> bool
  {
    (m: TeamMember) => m.memberType == t
  }

  /** The members of one type, in list order (`teamMembers.filter(member =>
      member.type === t)`). */
  function Group(members: seq<TeamMember>, t: MemberType): (r: seq<TeamMember>)
    ensures |r| <= |members|
    ensures forall i :: 0 <= i < |r| ==> r[i].memberType == t
  {
    Filter(OfType(t), members)
  }

  /** `executiveTeam`: the executives, in list order, each as often as in
      the list. */
  function ExecutiveTeam(members: seq<TeamMember>): (r: seq<TeamMember>)
    ensures IsSubsequence(r, members)
    ensures forall x :: x in r <==> x in members && x.memberType == Executive
  {
    GroupKeeps(members, Executive);
    Group(members, Executive)
  }

  /** `programStaff`: the program staff, in list order. */
  function ProgramTeam(members: seq<TeamMember>): (r: seq<TeamMember>)
    ensures IsSubsequence(r, members)
    ensures forall x :: x in r <==> x in members && x.memberType == ProgramStaff
  {
    GroupKeeps(members, ProgramStaff);
    Group(members, ProgramStaff)
  }

  /** `volunteers`: the volunteers, in list order. */
  function Volunteers(members: seq<TeamMember>): (r: seq<TeamMember>)
    ensures IsSubsequence(r, members)
    ensures forall x :: x in r <==> x in members && x.memberType == Volunteer
  {
    GroupKeeps(members, Volunteer);
    Group(members, Volunteer)
  }

  /** A group keeps list order, holds a member iff the member is in the list
      with that type, and holds it as often as the list does. */
  lemma GroupKeeps(members: seq<TeamMember>, t: MemberType)
    ensures IsSubsequence(Group(members, t), members)
    ensures forall x :: x in Group(members, t) <==> x in members && x.memberType == t
    ensures forall x :: multiset(Group(members, t))[x] ==
                        (if x.memberType == t then multiset(members)[x] else 0)
  {
    FilterIsSubsequence(OfType(t), members);
    FilterMembers(OfType(t), members);
    FilterMultiset(OfType(t), members);
  }

  /** Groups of different types share no member. */
  lemma GroupsDisjoint(members: seq<TeamMember>, t: MemberType, u: MemberType)
    requires t != u
    ensures forall x :: !(x in Group(members, t) && x in Group(members, u))
  {
    GroupKeeps(members, t);
    GroupKeeps(members, u);
  }

  /** The four type groups together account for every member exactly
      once. */
  lemma {:induction false} GroupSizesSum(members: seq<TeamMember>)
    ensures |Group(members, Executive)| + |Group(members, Board)|
          + |Group(members, Volunteer)| + |Group(members, ProgramStaff)| == |members|
  {
    if members != [] {
      GroupSizesSum(members[1..]);
    }
  }

  /** Board members are shown in no group, so the displayed groups add up to
      the list length minus the board count. */
  lemma DisplayedGroupsSize(members: seq<TeamMember>)
    ensures |ExecutiveTeam(members)| + |ProgramTeam(members)| + |Volunteers(members)|
         == |members| - |Group(members, Board)|
    ensures forall x :: x in members && x.memberType == Board ==>
      x !in ExecutiveTeam(members) && x !in ProgramTeam(members) && x !in Volunteers(members)
  {
    GroupSizesSum(members);
    GroupKeeps(members, Executive);
    GroupKeeps(members, ProgramStaff);
    GroupKeeps(members, Volunteer);
  }

  /** `getTypeLabel`: the four known types get their labels, anything else
      is shown as is. */
  function TypeLabel(t: string): (r: string)
    ensures t !in {"executive", "board", "volunteer", "program"} ==> r == t
  {
    match t
    case "executive" => "Executive Team"
    case "board" => "Board Member"
    case "volunteer" => "Volunteer"
    case "program" => "Program Staff"
    case _ => t
  }

  /** The known types get four distinct labels, each different from the type
      string itself; because unknown strings pass through, the label does
      not identify the type: "Volunteer" is shown the same as "volunteer". */
  lemma TypeLabels(t: MemberType, u: MemberType)
    ensures TypeLabel(TypeName(t)) != TypeName(t)
    ensures t != u ==> TypeLabel(TypeName(t)) != TypeLabel(TypeName(u))
    ensures TypeLabel("Volunteer") == TypeLabel(TypeName(Volunteer))
  {
  }

  const Gray: string := "bg-gray-100 text-gray-800"

  /** `getTypeColor`: badge classes by type, grey for anything unknown. */
  function TypeColor(t: string): (r: string)
    ensures t !in {"executive", "board", "volunteer", "program"} ==> r == Gray
  {
    match t
    case "executive" => "bg-green-100 text-green-800"
    case "board" => "bg-blue-100 text-blue-800"
    case "volunteer" => "bg-purple-100 text-purple-800"
    case "program" => "bg-orange-100 text-orange-800"
    case _ => Gray
  }

  /** The four types get four distinct, non-grey colours. */
  lemma TypeColorsDistinct(t: MemberType, u: MemberType)
    ensures TypeColor(TypeName(t)) != Gray
    ensures t != u ==> TypeColor(TypeName(t)) != TypeColor(TypeName(u))
  {
  }

  /** The members as the page hard-codes them. */
  const SampleMembers: seq<TeamMember> := [
    TeamMember("1", "Mr. Mauro Okrupa", "Chairman & Executive Director", 38, "Male",
      "mauro.okrupa@nari.gov.pg", "+675 7182 9634", Executive),
    TeamMember("2", "Mr. Karl Kama", "Strategic Advisor and Program Director", 36, "Male",
      "karl.kama@nari.gov.pg", "+675 8170 0969", Executive),
    TeamMember("3", "Mr. Paul Dinaropaa Rudolph", "Sustainable Development Program Manager", 48,
      "Male", "paul.rudolph@pumaenergy.com", "+675 7318 3614", Volunteer),
    TeamMember("4", "Mr. Nick Kola", "Legal & Policy Advisor", 33, "Male",
      "kolanick60@gmail.com", "+675 7854 3629", Volunteer),
    TeamMember("5", "Ms. Gaibee Bal", "Tourism and Hospitality Officer", 22, "Female",
      "gaibee.bal@kakondo.org", "+675 7123 4567", ProgramStaff),
    TeamMember("6", "Mr. Dom Kaupa", "Agriculture Program Coordinator", 36, "Male",
      "domson.kaupa@gmail.com", "+675 7129 9327", ProgramStaff),
    TeamMember("7", "Ms. More Gerel", "Water, Health and Sanitation Program Coordinator", 24,
      "Female", "more.gerel@kakondo.org", "+675 7264 8779", ProgramStaff),
    TeamMember("8", "Mr. Peter Mire", "ICT Manager", 24, "Male",
      "peter.mire@kakondo.org", "+675 8129 3737", Volunteer)
  ]

  /** Number of members of type `t`, read off the type sequence only. */
  function TypeCount(types: seq<MemberType>, t: MemberType): nat
  {
    if types == [] then 0 else (if types[0] == t then 1 else 0) + TypeCount(types[1..], t)
  }

  function TypesOf(members: seq<TeamMember>): (types: seq<MemberType>)
    ensures |types| == |members|
    ensures forall i :: 0 <= i < |members| ==> types[i] == members[i].memberType
  {
    if members == [] then [] else [members[0].memberType] + TypesOf(members[1..])
  }

  lemma {:induction false} GroupSizeByType(members: seq<TeamMember>, t: MemberType)
    ensures |Group(members, t)| == TypeCount(TypesOf(members), t)
  {
    if members != [] {
      GroupSizeByType(members[1..], t);
      assert TypesOf(members)[1..] == TypesOf(members[1..]);
    }
  }

  const SampleTypes: seq<MemberType> := [Executive, Executive, Volunteer, Volunteer,
    ProgramStaff, ProgramStaff, ProgramStaff, Volunteer]

  lemma SampleTypesOf()
    ensures TypesOf(SampleMembers) == SampleTypes
  {
    var types := TypesOf(SampleMembers);
    forall i | 0 <= i < 8 ensures types[i] == SampleTypes[i] {
    }
  }

  /** Any list with the sample's type sequence has groups of 2, 3 and 3
      and no board member. */
  lemma GroupsOfSampleTypes(members: seq<TeamMember>)
    requires TypesOf(members) == SampleTypes
    ensures |ExecutiveTeam(members)| == 2
    ensures |ProgramTeam(members)| == 3
    ensures |Volunteers(members)| == 3
    ensures |members| == 8
  {
    GroupSizeByType(members, Executive);
    GroupSizeByType(members, ProgramStaff);
    GroupSizeByType(members, Volunteer);
    assert TypeCount(SampleTypes, Executive) == 2;
    assert TypeCount(SampleTypes, ProgramStaff) == 3;
    assert TypeCount(SampleTypes, Volunteer) == 3;
  }

  /** On the sample list the cards read 2 executive, 3 program and
      3 volunteer members; with no board member these are all 8. */
  lemma SampleGroups()
    ensures |ExecutiveTeam(SampleMembers)| == 2
    ensures |ProgramTeam(SampleMembers)| == 3
    ensures |Volunteers(SampleMembers)| == 3
    ensures |ExecutiveTeam(SampleMembers)| + |ProgramTeam(SampleMembers)|
          + |Volunteers(SampleMembers)| == |SampleMembers| == 8
  {
    SampleTypesOf();
    GroupsOfSampleTypes(SampleMembers);
  }
}

=== FILE: text.dfy ===
/** String helpers standing in for the JavaScript string methods the pages
    call: `toLowerCase`, `includes`, `replace(str, str)` and
    `replace(/\b\w/g, l => l.toUpperCase())`. Case mapping covers ASCII
    letters only. */
module Text {

  predicate IsUpperAscii(c: char) { 'A' <= c <= 'Z' }

  predicate IsLowerAscii(c: char) { 'a' <= c <= 'z' }

  /** A character of the regular-expression class `\w`: `[A-Za-z0-9_]`. */
  predicate IsWordChar(c: char)
  {
    IsUpperAscii(c) || IsLowerAscii(c) || '0' <= c <= '9' || c == '_'
  }

  function ToLowerChar(c: char): (d: char)
    ensures !IsUpperAscii(d)
    ensures IsUpperAscii(c) || d == c
    ensures IsWordChar(d) <==> IsWordChar(c)
  {
    if IsUpperAscii(c) then (c as int + 32) as char else c
  }

  function ToUpperChar(c: char): (d: char)
    ensures !IsLowerAscii(d)
    ensures IsLowerAscii(c) || d == c
    ensures IsWordChar(d) <==> IsWordChar(c)
    ensures ToLowerChar(d) == ToLowerChar(c)
  {
    if IsLowerAscii(c) then (c as int - 32) as char else c
  }

  /** `s.toLowerCase()`, restricted to ASCII letters. */
  function ToLower(s: string): (r: string)
    ensures |r| == |s|
    ensures forall i :: 0 <= i < |s| ==> r[i] == ToLowerChar(s[i])
  {
    if s == [] then [] else [ToLowerChar(s[0])] + ToLower(s[1..])
  }

  /** Lower-casing twice is lower-casing once. */
  lemma ToLowerIdempotent(s: string)
    ensures ToLower(ToLower(s)) == ToLower(s)
  {
    var r := ToLower(s);
    assert forall i :: 0 <= i < |r| ==> ToLowerChar(r[i]) == r[i];
  }

  /** `needle` occurs as a contiguous block of `hay` (declarative reference
      for `Includes`). */
  ghost predicate IsInfix(needle: string, hay: string)
  {
    exists i :: OccursAt(needle, hay, i)
  }

  /** `needle` occurs in `hay` starting at position `i`. */
  predicate OccursAt(needle: string, hay: string, i: int)
  {
    0 <= i && i + |needle| <= |hay| && hay[i..i + |needle|] == needle
  }

  /** `hay.includes(needle)`: scan the start positions left to right; the
      scan succeeds iff the needle occurs somewhere in the haystack. */
  function Includes(hay: string, needle: string): (r: bool)
    ensures r <==> IsInfix(needle, hay)
    decreases |hay|
  {
    if |needle| > |hay| then false
    else if hay[..|needle|] == needle then
      assert OccursAt(needle, hay, 0);
      true
    else
      InfixTail(hay, needle);
      Includes(hay[1..], needle)
  }

  /** When the needle is not a prefix, it occurs in the haystack iff it
      occurs in the haystack's tail. */
  lemma InfixTail(hay: string, needle: string)
    requires |needle| <= |hay| && hay[..|needle|] != needle
    ensures IsInfix(needle, hay) <==> IsInfix(needle, hay[1..])
  {
    var n := |needle|;
    if IsInfix(needle, hay) {
      var i :| OccursAt(needle, hay, i);
      assert i != 0;
      assert hay[1..][i - 1..i - 1 + n] == hay[i..i + n];
      assert OccursAt(needle, hay[1..], i - 1);
    }
    if IsInfix(needle, hay[1..]) {
      var j :| OccursAt(needle, hay[1..], j);
      assert OccursAt(needle, hay, j + 1) by {
        assert j + 1 + n <= |hay|;
        forall k | 0 <= k < n
          ensures hay[j + 1..j + 1 + n][k] == needle[k]
        {
          calc {
            hay[j + 1..j + 1 + n][k];
            hay[j + 1 + k];
            hay[1..][j + k];
            hay[1..][j..j + n][k];
            needle[k];
          }
        }
        assert hay[j + 1..j + 1 + n] == needle;
      }
    }
  }

  /** The empty string occurs in every string. */
  lemma IncludesEmpty(hay: string)
    ensures Includes(hay, "")
  {
    assert OccursAt("", hay, 0);
  }

  /** `s.replace(from, to)` with a one-character pattern: only the first
      occurrence of `from` is replaced. */
  function ReplaceFirst(s: string, from: char, to: char): (r: string)
    ensures |r| == |s|
    ensures forall i :: 0 <= i < |s| ==>
      r[i] == if s[i] == from && from !in s[..i] then to else s[i]
  {
    if s == [] then []
    else if s[0] == from then [to] + s[1..]
    else
      var rest := ReplaceFirst(s[1..], from, to);
      assert forall i :: 1 <= i < |s| ==> s[..i] == [s[0]] + s[1..][..i - 1];
      [s[0]] + rest
  }

  /** Position `i` of `s` is where the regular expression `\b\w` matches:
      a word character not preceded by another word character. */
  predicate AtWordStart(s: string, i: int)
    requires 0 <= i < |s|
  {
    IsWordChar(s[i]) && (i == 0 || !IsWordChar(s[i - 1]))
  }

  /** Left-to-right scan that upper-cases a word character when the previous
      character (`prevIsWord` for the first one) was not a word character. */
  function CapitalizeFrom(s: string, prevIsWord: bool): (r: string)
    ensures |r| == |s|
    ensures |s| > 0 ==> r[0] == if IsWordChar(s[0]) && !prevIsWord then ToUpperChar(s[0]) else s[0]
    ensures forall i :: 1 <= i < |s| ==>
      r[i] == if AtWordStart(s, i) then ToUpperChar(s[i]) else s[i]
  {
    if s == [] then []
    else
      var rest := CapitalizeFrom(s[1..], IsWordChar(s[0]));
      assert forall i :: 1 <= i < |s| ==> (AtWordStart(s, i) <==> IsWordChar(s[1..][i - 1]) && !(if i == 1 then IsWordChar(s[0]) else IsWordChar(s[1..][i - 2])));
      [if IsWordChar(s[0]) && !prevIsWord then ToUpperChar(s[0]) else s[0]] + rest
  }

  /** `s.replace(/\b\w/g, l => l.toUpperCase())`: upper-case exactly the
      characters at which a word starts. */
  function CapitalizeWords(s: string): (r: string)
    ensures |r| == |s|
    ensures forall i :: 0 <= i < |s| ==>
      r[i] == if AtWordStart(s, i) then ToUpperChar(s[i]) else s[i]
  {
    CapitalizeFrom(s, false)
  }

  /** Replacing one non-word character by another moves no word start:
      `\b\w` matches at the same positions before and after. */
  lemma ReplaceFirstWordStarts(s: string, from: char, to: char)
    requires !IsWordChar(from) && !IsWordChar(to)
    ensures forall i :: 0 <= i < |s| ==> (AtWordStart(ReplaceFirst(s, from, to), i) <==> AtWordStart(s, i))
  {
    var r := ReplaceFirst(s, from, to);
    assert forall i :: 0 <= i < |s| ==> (IsWordChar(r[i]) <==> IsWordChar(s[i]));
  }

  /** Without an occurrence of `from` the replacement changes nothing. */
  lemma ReplaceFirstAbsent(s: string, from: char, to: char)
    requires from !in s
    ensures ReplaceFirst(s, from, to) == s
  {
  }

  /** Only the first occurrence is replaced, however many follow. */
  lemma ReplaceFirstSplit(a: string, b: string, from: char, to: char)
    requires from !in a
    ensures ReplaceFirst(a + [from] + b, from, to) == a + [to] + b
  {
    var s := a + [from] + b;
    assert s[..|a|] == a;
    forall i | 0 <= i < |s|
      ensures ReplaceFirst(s, from, to)[i] == (a + [to] + b)[i]
    {
      if i > |a| {
        assert s[i] == b[i - |a| - 1];
        assert from in s[..i] by { assert s[..i][|a|] == from; }
      }
    }
  }

  /** A word of lower-case letters gets its first letter upper-cased. */
  predicate IsLowerWord(w: string)
  {
    |w| > 0 && forall i :: 0 <= i < |w| ==> IsLowerAscii(w[i])
  }

  lemma CapitalizeLowerWord(w: string)
    requires IsLowerWord(w)
    ensures CapitalizeWords(w) == [ToUpperChar(w[0])] + w[1..]
  {
  }

  /** Two lower-case words separated by a space are capitalised
      independently. */
  lemma CapitalizeTwoLowerWords(a: string, b: string)
    requires IsLowerWord(a) && IsLowerWord(b)
    ensures CapitalizeWords(a + " " + b) == [ToUpperChar(a[0])] + a[1..] + " " + [ToUpperChar(b[0])] + b[1..]
  {
    var s := a + " " + b;
    var t := [ToUpperChar(a[0])] + a[1..] + " " + [ToUpperChar(b[0])] + b[1..];
    forall i | 0 <= i < |s|
      ensures CapitalizeWords(s)[i] == t[i]
    {
      if i < |a| {
        assert s[i] == a[i];
        if i > 0 { assert s[i - 1] == a[i - 1]; }
      } else if i > |a| + 1 {
        assert s[i] == b[i - |a| - 1];
        assert s[i - 1] == b[i - |a| - 2];
      }
    }
  }
}
